=== FILE: README.md ===
# ATS interface: decision logic of the resume-screening form

The repository is a single React screen, `ATSInterface`, that collects a
job description and a resume (pasted text or an uploaded file), posts them
to a remote scoring service, and renders the returned decision and scores.
This project models the small amount of decision logic inside that screen
as pure Dafny functions over strings, reals and an immutable state record:

- `JsText` — the JavaScript string built-ins the screen relies on:
  `lastIndexOf` (answers -1 when absent), one-argument `substring` (clamps a
  negative start to 0), `toLowerCase` (ASCII letters only), and the decimal
  rendering of an HTTP status inside a template literal.
- `Upload` — the filename check of `handleFileChange`: the suffix from the
  last `.`, lower-cased, must be `.pdf`, `.docx` or `.txt`. With no `.` in
  the name the whole lower-cased name is compared, so such names are always
  rejected, while `.PDF` is accepted. The check is proved equal to an
  independent definition: "the name ends, ignoring ASCII case, with one of
  the three types".
- `Display` — `getScoreColor` (tiers at 75 and 60, proved monotone) and
  `getDecisionIcon` (case-insensitive exact match; anything else, or a
  missing decision, gives no icon).
- `Session` — the state hooks `{jobDescription, cvText, file, loading,
  result, error, activeTab}` and their transitions: file selection, the
  analyze button (disabled while `loading`), local validation in
  `analyzeText` / `analyzeFile`, request start, and completion. The network
  call is not modelled; its outcome is the `Outcome` parameter of `Settle`
  (a response with a status and a readable or unreadable body, or a thrown
  transport error). `response.ok` is a status in 200..299. A trace of user
  events (`Run`) is proved to keep `loading` true exactly while one request
  is outstanding, and never to store or send a file with a rejected name.

Behaviours of the code worth knowing, all kept in the model:

- The error banner and the result panel are independent: a failed request
  keeps the last successful result beside the error (`Settle`,
  `ServerErrorKeepsStaleResult`).
- Neither starting a request nor a failure touches the result: only a
  successful response replaces it (possibly with a falsy value, below).
- The error is cleared by starting a request and by choosing an accepted
  file, never by a successful response. So an invalid file chosen while a
  request is outstanding leaves its message visible after that request
  succeeds (`Settle` keeps `error` on success).
- A successful response whose body is a falsy JSON value (`null`, `false`,
  `0`, `""`) is stored as the result too, and the result panel then shows
  its placeholder again (`Parsed(None)`).

## Model

| member | source | states |
|---|---|---|
| JsText.LowerChar | ats-interface.jsx:20 | lower-casing maps `A`..`Z` to `a`..`z` and leaves every other character unchanged |
| JsText.LowerCharDot | ats-interface.jsx:20 | lower-casing turns a character into `.` exactly when it was `.` |
| JsText.ToLowerCase | ats-interface.jsx:20 | `toLowerCase` keeps the length and lower-cases each position |
| JsText.ToLowerCaseEqualIff | ats-interface.jsx:102 | two strings lower-case to the same string exactly when they agree position by position ignoring case |
| JsText.ToLowerCaseIdempotent | ats-interface.jsx:102 | lower-casing an already lower-cased string changes nothing |
| JsText.ToLowerCaseKeepsNoDot | ats-interface.jsx:20 | lower-casing a name without `.` gives a string without `.` |
| JsText.LastIndexOf | ats-interface.jsx:20 | `lastIndexOf('.')` lies in -1..len-1, points at a `.` when non-negative, and no `.` follows it |
| JsText.LastIndexOfAbsent | ats-interface.jsx:20 | `lastIndexOf` answers -1 exactly when the character does not occur |
| JsText.Substring | ats-interface.jsx:20 | `substring(start)` returns the whole string for a start of 0 or less (so -1 clamps to 0), the empty string past the end, and otherwise the characters from `start` on |
| JsText.DecimalString | ats-interface.jsx:54 | the status renders as a non-empty string of decimal digits with no leading zero |
| JsText.DecimalRoundTrip | ats-interface.jsx:54 | reading back the rendered status gives the status |
| JsText.DecimalStringInjective | ats-interface.jsx:54 | different statuses render as different text |
| Upload.Extension | ats-interface.jsx:20 | with a `.` in the name, the extension is the lower-cased suffix starting at the last `.` (one leading `.`, no other); with none, it is the whole lower-cased name |
| Upload.LastSuffixShape | ats-interface.jsx:20 | the lower-cased suffix from `lastIndexOf('.')` starts with that `.` and holds no other; with no `.` the substring is the whole name |
| Upload.ValidTypesAreLowerCase | ats-interface.jsx:19 | each valid type is its own lower-casing |
| Upload.ValidTypesAreDotTypes | ats-interface.jsx:19 | each valid type is already lower-case and has one leading `.` and no other |
| Upload.IsAcceptedName | ats-interface.jsx:21 | the `validTypes.includes(ext)` verdict; an accepted name contains a `.` and has at least four characters, so a name without `.` (compared whole) is always rejected |
| Upload.ExtensionOfDotSuffix | ats-interface.jsx:20 | a name that ends, ignoring case, with a type that has a single leading `.` has exactly that type as its extension |
| Upload.AcceptedEndsWithExtension | ats-interface.jsx:19-21 | an accepted name ends, ignoring case, with its extension |
| Upload.EndsWithValidTypeAccepted | ats-interface.jsx:19-21 | a name ending, ignoring case, with `.pdf`, `.docx` or `.txt` is accepted |
| Upload.AcceptedIffEndsWithValidType | ats-interface.jsx:19-21 | a name is accepted if and only if it ends, ignoring ASCII case, with one of the valid types `.pdf`, `.docx`, `.txt` |
| Upload.AcceptanceIgnoresCase | ats-interface.jsx:20 | names differing only in letter case have the same extension and the same verdict |
| Upload.MixedCasePdfAccepted | ats-interface.jsx:19-21 | `resume.PDF` is accepted |
| Upload.InnerDotIgnored | ats-interface.jsx:19-21 | `a.tar.pdf` is accepted: only the last `.` counts |
| Upload.TrailingTypeDecides | ats-interface.jsx:19-21 | `a.pdf.exe` and `resume.exe` are rejected |
| Upload.WholeNameComparedWithoutDot | ats-interface.jsx:20-21 | `pdf` is rejected and `.PDF` is accepted |
| Display.ScoreTier | ats-interface.jsx:114-118 | green exactly for a score of at least 75, yellow exactly for 60 up to 75, red exactly below 60 |
| Display.ScoreColor | ats-interface.jsx:114-118 | the class is `text-green-600`, `text-yellow-600` or `text-red-600` exactly on those three ranges |
| Display.ScoreTierMonotone | ats-interface.jsx:114-118 | a higher score never gets a worse tier |
| Display.ScoreTierExamples | ats-interface.jsx:114-118 | scores 80, 65 and 40 get green, yellow and red |
| Display.DecisionIcon | ats-interface.jsx:101-111 | the check, alert and cross icons appear exactly for a decision that lower-cases to `pass`, `borderline`, `reject`; a missing decision gets no icon |
| Display.DecisionIconIgnoresCase | ats-interface.jsx:102 | decisions differing only in letter case get the same icon |
| Display.DecisionIconOfLowerCase | ats-interface.jsx:102 | a decision and its lower-cased form get the same icon |
| Display.DecisionIconExamples | ats-interface.jsx:101-111 | `PASS` gets the check icon, `reject` the cross icon, a missing decision none |
| Display.MixedCaseBorderline | ats-interface.jsx:105-106 | `Borderline` gets the alert icon |
| Display.NearMissGetsNoIcon | ats-interface.jsx:109-110 | `passed` and `rejected` are not exact matches and get no icon |
| Session.ApiErrorMessage | ats-interface.jsx:53-55 | the message is `API Error: ` followed by the status in decimal: only digits, no leading zero, reading back as the status |
| Session.IsOk | ats-interface.jsx:53 | `response.ok` holds exactly for a status in 200..299 |
| Session.Endpoint | ats-interface.jsx:41 | text requests go to `/api/analyze` and file requests (line 80) to `/api/analyze-file`, and each path identifies its request shape |
| Session.SelectFile | ats-interface.jsx:16-29 | no selection changes nothing; otherwise the file is stored exactly when its name is accepted, an accepted file clears the error, a rejected one drops the stored file and shows the fixed message; nothing else changes |
| Session.AnalyzeText | ats-interface.jsx:31-51 | a request is issued exactly when job description and CV text are both non-empty; it carries both as typed; then loading starts and the error clears; otherwise only the error changes, to the text-mode message |
| Session.AnalyzeFile | ats-interface.jsx:66-86 | a request is issued exactly when the job description is non-empty and a file is stored; it carries both; then loading starts and the error clears; otherwise only the error changes, to the file-mode message |
| Session.Press | ats-interface.jsx:266-268 | a press does nothing while loading; otherwise it issues a request exactly when the active tab's inputs are present — on the text tab a text request with the typed job description and CV text, on the file tab a file request with the job description and the stored file — and starts loading with the error cleared, or sets only the mode's message |
| Session.Settle | ats-interface.jsx:53-63 | completion always ends loading and touches only loading, result and error; a non-ok status shows `API Error: <status>` and keeps the old result; an unreadable body or a thrown error shows its message and keeps the old result; an ok, readable response replaces the result with its value (which may be a falsy value, shown as no result) and leaves the error alone |
| Session.RequestLifecycle | ats-interface.jsx:37-63 | a press from an idle state with inputs present, then any outcome: loading is off, the inputs are unchanged, and either the response's value is the result with no error or the old result stays beside an error |
| Session.ValidationFailureIssuesNothing | ats-interface.jsx:32-35 | a missing job description or resume input issues no request, leaves loading and result as they were, and shows the mode's message |
| Session.WhitespaceIsInput | ats-interface.jsx:32 | whitespace-only fields are not missing: a request is issued |
| Session.TextSubmissionExample | ats-interface.jsx:41-51 | text mode with "Senior Engineer" and "10 years C++" issues one text request with exactly those fields, posted to `/api/analyze` |
| Session.ServerErrorKeepsStaleResult | ats-interface.jsx:53-60 | a status-500 response, whatever its body, shows `API Error: 500` and keeps the previous result |
| Session.Step | ats-interface.jsx:266-268 | a press yields `Press`'s state and logs exactly the request `Press` sends (none while loading); a completion while loading yields `Settle`'s state for its outcome and counts one completion, and with none outstanding changes nothing; a file choice yields `SelectFile`'s state; each edit or tab switch changes only its own field; the result changes only on an ok, readable response; earlier requests stay as a prefix |
| Session.Run | ats-interface.jsx:266-268 | a run of n events issues and completes at most n requests in all (issued plus completed); with none issued or completed, `loading` and the result are as they started |
| Session.StepKeepsInFlightTracked | ats-interface.jsx:268 | every event keeps "requests issued = requests completed, plus one while loading" |
| Session.RunKeepsInFlightTracked | ats-interface.jsx:266-268 | from an idle state, any run keeps `loading` true exactly while one request is outstanding, and never has two outstanding |
| Session.StepKeepsStoredFileAccepted | ats-interface.jsx:16-29 | no event stores a file whose name is rejected |
| Session.RunKeepsStoredFileAccepted | ats-interface.jsx:16-29 | after any run the stored file, if any, has an accepted name |
| Session.StepRequestCarriesAcceptedFile | ats-interface.jsx:66-86 | a file request issued by one event carries a file with an accepted name |
| Session.RunRequestsCarryAcceptedFiles | ats-interface.jsx:66-86 | every file request issued in a run carries a file with an accepted name |

## Left out

- All JSX rendering: layout, styling, lucide-react icons as components (modelled as the `Icon` tags), progress-bar widths, skill chips and the checklist list.
- `fetch`, `FormData`, JSON serialisation and parsing, and the `Content-Type` and `Authorization` headers: network I/O. The call's result is the abstract `Outcome`; the request is recorded only by its shape and `Endpoint`.
- The API configuration panel (`apiUrl`, `apiKey`, `showConfig`): plain state setters with no logic.
- The "max 10MB" hint: the code performs no size check, so `CvFile.size` is carried and never inspected.
- Overlapping requests and out-of-order completion: concurrency. One request is outstanding at a time, as the disabled button enforces; a completion with none outstanding is ignored by `Step`.
- Session.Press: React's asynchronous state updates are not modelled, so two clicks landing before the button re-renders as disabled cannot issue two requests here.
- JsText.ToLowerCase: ASCII letters only; full Unicode lower-casing (which maps some non-ASCII characters to ASCII letters) is not modelled.
- Display.ScoreTier: scores are reals, not IEEE doubles; a missing or non-numeric score (where every JavaScript comparison is false and the tier is red) is not modelled.
- Display.DecisionIcon: a decision that is present but not a string (where `toLowerCase` throws) is not modelled.
- A successful response whose body is a truthy value that is not a result record (where rendering throws) is not modelled.
- Exceptions thrown while rendering a result with missing nested fields: presentation.
- Only the first selected file (`files[0]`) is considered; the file picker's own `accept` filter is a browser hint with no logic here.

=== FILE: display.dfy ===
/**
 The two display decisions of the result panel: the colour tier of the
 overall score (`getScoreColor`) and the icon for the decision string
 (`getDecisionIcon`).
 */
module Display {
  import opened Options
  import opened JsText

  /** The three colour tiers, best first. */
  datatype Tier = Green | Yellow | Red

  /** Smaller is better: Green 0, Yellow 1, Red 2. */
  function Rank(t: Tier): nat
  {
    match t
    case Green => 0
    case Yellow => 1
    case Red => 2
  }

  /** The CSS class the component gives each tier. */
  function ColorClass(t: Tier): string
  {
    match t
    case Green => "text-green-600"
    case Yellow => "text-yellow-600"
    case Red => "text-red-600"
  }

  /** Thresholds at 75 and 60: at least 75 is green, at least 60 is yellow, anything lower is red. */
  function ScoreTier(score: real): (t: Tier)
    ensures t == Green <==> score >= 75.0
    ensures t == Yellow <==> 60.0 <= score < 75.0
    ensures t == Red <==> score < 60.0
  {
    if score >= 75.0 then Green
    else if score >= 60.0 then Yellow
    else Red
  }

  /** `getScoreColor`: the class string of the score's tier. */
  function ScoreColor(score: real): (c: string)
    ensures c == "text-green-600" <==> score >= 75.0
    ensures c == "text-yellow-600" <==> 60.0 <= score < 75.0
    ensures c == "text-red-600" <==> score < 60.0
  {
    ColorClass(ScoreTier(score))
  }

  /** A higher score never lands in a worse tier. */
  lemma ScoreTierMonotone(lo: real, hi: real)
    requires lo <= hi
    ensures Rank(ScoreTier(hi)) <= Rank(ScoreTier(lo))
  {
  }

  lemma ScoreTierExamples()
    ensures ScoreColor(80.0) == "text-green-600"
    ensures ScoreColor(65.0) == "text-yellow-600"
    ensures ScoreColor(40.0) == "text-red-600"
  {
  }

  /** The icons of the decision card; `NoIcon` is the `null` of the default case. */
  datatype Icon = CheckCircle | AlertCircle | XCircle | NoIcon

  /**
   `getDecisionIcon(decision)`: an exact match of the lower-cased decision
   against "pass", "borderline" and "reject"; a missing decision, like any
   other string, gives no icon.
   */
  function DecisionIcon(decision: Option<string>): (icon: Icon)
    ensures icon == CheckCircle <==> decision.Some? && ToLowerCase(decision.value) == "pass"
    ensures icon == AlertCircle <==> decision.Some? && ToLowerCase(decision.value) == "borderline"
    ensures icon == XCircle <==> decision.Some? && ToLowerCase(decision.value) == "reject"
    ensures decision.None? ==> icon == NoIcon
  {
    match decision
    case None => NoIcon
    case Some(s) =>
      var low := ToLowerCase(s);
      if low == "pass" then CheckCircle
      else if low == "borderline" then AlertCircle
      else if low == "reject" then XCircle
      else NoIcon
  }

  /** Decisions that differ only in letter case get the same icon. */
  lemma {:induction false} DecisionIconIgnoresCase(a: string, b: string)
    requires SameIgnoringCase(a, b)
    ensures DecisionIcon(Some(a)) == DecisionIcon(Some(b))
  {
    ToLowerCaseEqualIff(a, b);
  }

  /** A decision already in lower case is matched as it stands. */
  lemma {:induction false} DecisionIconOfLowerCase(s: string)
    ensures DecisionIcon(Some(s)) == DecisionIcon(Some(ToLowerCase(s)))
  {
    ToLowerCaseIdempotent(s);
  }

  lemma DecisionIconExamples()
    ensures DecisionIcon(Some("PASS")) == CheckCircle
    ensures DecisionIcon(Some("reject")) == XCircle
    ensures DecisionIcon(None) == NoIcon
  {
    LowerCaseLiteral("PASS", "pass");
    LowerCaseLiteral("reject", "reject");
  }

  lemma MixedCaseBorderline()
    ensures DecisionIcon(Some("Borderline")) == AlertCircle
  {
    LowerCaseLiteral("Borderline", "borderline");
  }

  lemma NearMissGetsNoIcon()
    ensures DecisionIcon(Some("passed")) == NoIcon
    ensures DecisionIcon(Some("rejected")) == NoIcon
  {
    LowerCaseLiteral("passed", "passed");
    LowerCaseLiteral("rejected", "rejected");
  }
}

=== FILE: jstext.dfy ===
/**
 The few JavaScript string built-ins the screen relies on, with their
 JavaScript edge cases written out: `lastIndexOf` answers -1 when the
 character is absent, one-argument `substring` clamps its start into the
 string, and `toLowerCase` is modelled on ASCII letters only.
 */
module JsText {

  /** Lower-cases one ASCII letter and leaves every other character alone. */
  function LowerChar(c: char): (d: char)
    ensures 'A' <= c <= 'Z' ==> 'a' <= d <= 'z' && d as int - 'a' as int == c as int - 'A' as int
    ensures !('A' <= c <= 'Z') ==> d == c
  {
    if 'A' <= c <= 'Z' then (c as int - 'A' as int + 'a' as int) as char else c
  }

  /** Lower-casing never creates or removes a '.'. */
  lemma LowerCharDot(c: char)
    ensures LowerChar(c) == '.' <==> c == '.'
  {
  }

  /** `s.toLowerCase()`, character by character. */
  function ToLowerCase(s: string): (r: string)
    ensures |r| == |s|
    ensures forall i :: 0 <= i < |s| ==> r[i] == LowerChar(s[i])
  {
    if s == [] then [] else [LowerChar(s[0])] + ToLowerCase(s[1..])
  }

  /** A string is the lower-casing of another when it agrees with it character by character. */
  lemma LowerCaseLiteral(s: string, t: string)
    requires |s| == |t|
    requires forall i :: 0 <= i < |s| ==> LowerChar(s[i]) == t[i]
    ensures ToLowerCase(s) == t
  {
  }

  /** Two strings that agree once lower-cased, position by position. */
  ghost predicate SameIgnoringCase(a: string, b: string)
  {
    |a| == |b| && forall i :: 0 <= i < |a| ==> LowerChar(a[i]) == LowerChar(b[i])
  }

  /** Lower-casing identifies exactly the strings that differ only in case. */
  lemma ToLowerCaseEqualIff(a: string, b: string)
    ensures ToLowerCase(a) == ToLowerCase(b) <==> SameIgnoringCase(a, b)
  {
    if SameIgnoringCase(a, b) {
      assert forall i :: 0 <= i < |a| ==> ToLowerCase(a)[i] == ToLowerCase(b)[i];
    }
    if ToLowerCase(a) == ToLowerCase(b) {
      assert forall i :: 0 <= i < |a| ==> LowerChar(a[i]) == ToLowerCase(a)[i];
    }
  }

  /** Lower-casing a string without '.' gives a string without '.'. */
  lemma ToLowerCaseKeepsNoDot(s: string)
    requires '.' !in s
    ensures '.' !in ToLowerCase(s)
  {
    forall i | 0 <= i < |s|
      ensures ToLowerCase(s)[i] != '.'
    {
      LowerCharDot(s[i]);
    }
  }

  /** Lower-casing twice is lower-casing once. */
  lemma ToLowerCaseIdempotent(s: string)
    ensures ToLowerCase(ToLowerCase(s)) == ToLowerCase(s)
  {
    var l := ToLowerCase(s);
    assert forall i :: 0 <= i < |l| ==> LowerChar(l[i]) == l[i];
    assert forall i :: 0 <= i < |l| ==> ToLowerCase(l)[i] == l[i];
  }

  /**
   `s.lastIndexOf(c)`: the index of the last occurrence of `c`, or -1 when
   `c` does not occur at all.
   */
  function LastIndexOf(s: string, c: char): (r: int)
    ensures -1 <= r < |s|
    ensures r >= 0 ==> s[r] == c
    ensures forall j :: r < j < |s| ==> s[j] != c
  {
    if s == [] then -1
    else if s[|s| - 1] == c then |s| - 1
    else LastIndexOf(s[..|s| - 1], c)
  }

  /** `lastIndexOf` answers -1 exactly when the character is absent. */
  lemma LastIndexOfAbsent(s: string, c: char)
    ensures LastIndexOf(s, c) == -1 <==> c !in s
  {
    var r := LastIndexOf(s, c);
    if c in s {
      var j :| 0 <= j < |s| && s[j] == c;
      assert r >= j;
    }
  }

  /**
   One-argument `s.substring(start)`: a negative start counts as 0 and a
   start past the end counts as the length, so the result is always a suffix.
   */
  function Substring(s: string, start: int): (r: string)
    ensures start <= 0 ==> r == s
    ensures start >= |s| ==> r == []
    ensures 0 <= start <= |s| ==> |r| == |s| - start
    ensures 0 <= start <= |s| ==> forall i :: 0 <= i < |r| ==> r[i] == s[start + i]
  {
    var k := if start < 0 then 0 else if start > |s| then |s| else start;
    s[k..]
  }

  /** The character of a decimal digit 0..9. */
  function DigitChar(d: nat): (c: char)
    requires d < 10
    ensures '0' <= c <= '9'
    ensures c as int - '0' as int == d
  {
    ('0' as int + d) as char
  }

  /** Decimal rendering of a non-negative integer, as a template literal renders it. */
  function DecimalString(n: nat): (r: string)
    ensures |r| >= 1
    ensures forall i :: 0 <= i < |r| ==> '0' <= r[i] <= '9'
    ensures |r| > 1 ==> r[0] != '0'
    decreases n
  {
    if n < 10 then [DigitChar(n)] else DecimalString(n / 10) + [DigitChar(n % 10)]
  }

  /** The value of a string of decimal digits, most significant first. */
  function DecimalValue(s: string): nat
  {
    if s == [] then 0
    else
      var d := s[|s| - 1] as int - '0' as int;
      DecimalValue(s[..|s| - 1]) * 10 + (if 0 <= d < 10 then d else 0)
  }

  /** Reading back a rendered number gives the number. */
  lemma {:induction false} DecimalRoundTrip(n: nat)
    ensures DecimalValue(DecimalString(n)) == n
    decreases n
  {
    if n >= 10 {
      DecimalRoundTrip(n / 10);
      var r := DecimalString(n);
      assert r[..|r| - 1] == DecimalString(n / 10);
    }
  }

  /** Distinct numbers render differently. */
  lemma DecimalStringInjective(m: nat, n: nat)
    requires DecimalString(m) == DecimalString(n)
    ensures m == n
  {
    DecimalRoundTrip(m);
    DecimalRoundTrip(n);
  }
}

=== FILE: options.dfy ===
/** The optional values of the screen's state: `null` in the component becomes `None`. */
module Options {

  datatype Option<+T> = None | Some(value: T)
}

=== FILE: session.dfy ===
/**
 The request lifecycle of the screen as an immutable state record and
 transition functions. The network call is not modelled: its outcome is a
 parameter of `Settle`. One request is outstanding at a time, because the
 analyze button is disabled while `loading` holds.
 */
module Session {
  import opened Options
  import opened JsText
  import opened Upload

  /** Which resume input the screen shows: pasted text or an uploaded file. */
  datatype Tab = TextTab | FileTab

  /** A selected file; only its name is ever inspected, the size is carried but never checked. */
  datatype CvFile = CvFile(name: string, size: nat)

  /** The sub-scores and skill lists of a result. */
  datatype AtsScore = AtsScore(
    skillMatchScore: real,
    experienceScore: real,
    titleSimilarityScore: real,
    matchedSkills: seq<string>,
    missingMustHave: seq<string>)

  /** The service's answer, stored as received. */
  datatype AnalysisResult = AnalysisResult(
    decision: Option<string>,
    overallScore: real,
    summary: string,
    atsScore: AtsScore,
    improvementChecklist: seq<string>)

  /** The component's state hooks, less the API configuration. */
  datatype State = State(
    jobDescription: string,
    cvText: string,
    file: Option<CvFile>,
    loading: bool,
    result: Option<AnalysisResult>,
    error: Option<string>,
    activeTab: Tab)

  /** The two request shapes: a JSON body in text mode, a multipart form in file mode. */
  datatype Request =
    | TextRequest(jobDescription: string, cvText: string)
    | FileRequest(jobDescription: string, cvFile: CvFile)

  /**
   What the body of a response turned out to be. `Parsed(None)` is a
   readable but falsy JSON value (`null`, `false`, `0`, `""`): it is stored
   as the result all the same, and the result panel then shows its
   placeholder again.
   */
  datatype Body = Parsed(data: Option<AnalysisResult>) | Unparsable(message: string)

  /** How the outstanding call ended: a response with an HTTP status, or a thrown error. */
  datatype Outcome = Response(status: nat, body: Body) | TransportFailure(message: string)

  /** The state after pressing the button, and the request it issued, if any. */
  datatype Dispatch = Dispatch(state: State, request: Option<Request>)

  const TextMissingMessage := "Please provide both job description and CV text"
  const FileMissingMessage := "Please provide both job description and CV file"
  const InvalidTypeMessage := "Please upload a PDF, DOCX, or TXT file"
  const ApiErrorPrefix := "API Error: "

  /** The initial values of the state hooks. */
  const Initial := State("", "", None, false, None, None, TextTab)

  /** The path each request shape is posted to. */
  function Endpoint(req: Request): (path: string)
    ensures req.TextRequest? <==> path == "/api/analyze"
    ensures req.FileRequest? <==> path == "/api/analyze-file"
  {
    match req
    case TextRequest(_, _) => "/api/analyze"
    case FileRequest(_, _) => "/api/analyze-file"
  }

  /** `response.ok`: the status is in the 2xx class, that is, in 200..299. */
  predicate IsOk(status: nat)
    ensures IsOk(status) <==> 200 <= status <= 299
  {
    status / 100 == 2
  }

  /** The message thrown for a response that is not ok. */
  function ApiErrorMessage(status: nat): (msg: string)
    ensures |msg| > |ApiErrorPrefix|
    ensures msg[..|ApiErrorPrefix|] == ApiErrorPrefix
    ensures DecimalValue(msg[|ApiErrorPrefix|..]) == status
    ensures forall i :: |ApiErrorPrefix| <= i < |msg| ==> '0' <= msg[i] <= '9'
    ensures |msg| > |ApiErrorPrefix| + 1 ==> msg[|ApiErrorPrefix|] != '0'
  {
    var msg := ApiErrorPrefix + DecimalString(status);
    assert msg[|ApiErrorPrefix|..] == DecimalString(status);
    DecimalRoundTrip(status);
    msg
  }

  /**
   `handleFileChange`: with no file chosen nothing changes; an accepted
   name stores the file and clears the error; any other name drops the
   stored file and shows the fixed message.
   */
  function SelectFile(st: State, selected: Option<CvFile>): (r: State)
    ensures selected.None? ==> r == st
    ensures selected.Some? ==> (r.file.Some? <==> IsAcceptedName(selected.value.name))
    ensures selected.Some? && r.file.Some? ==> r.file == selected && r.error.None?
    ensures selected.Some? && r.file.None? ==> r.error == Some(InvalidTypeMessage)
    ensures r.(file := st.file, error := st.error) == st
  {
    match selected
    case None => st
    case Some(f) =>
      if IsAcceptedName(f.name) then st.(file := Some(f), error := None)
      else st.(error := Some(InvalidTypeMessage), file := None)
  }

  /** The resume input of the active tab is present: non-empty text, or a stored file. */
  predicate HasResumeInput(st: State)
  {
    match st.activeTab
    case TextTab => st.cvText != []
    case FileTab => st.file.Some?
  }

  /** The validation message of the active tab. */
  function MissingMessage(tab: Tab): string
  {
    match tab
    case TextTab => TextMissingMessage
    case FileTab => FileMissingMessage
  }

  /** `analyzeText` up to the network call. */
  function AnalyzeText(st: State): (d: Dispatch)
    ensures d.request.Some? <==> st.jobDescription != [] && st.cvText != []
    ensures d.request.Some? ==> d.request == Some(TextRequest(st.jobDescription, st.cvText))
    ensures d.request.Some? ==> d.state == st.(loading := true, error := None)
    ensures d.request.None? ==> d.state == st.(error := Some(TextMissingMessage))
  {
    if st.jobDescription == [] || st.cvText == [] then
      Dispatch(st.(error := Some(TextMissingMessage)), None)
    else
      Dispatch(st.(loading := true, error := None), Some(TextRequest(st.jobDescription, st.cvText)))
  }

  /** `analyzeFile` up to the network call. */
  function AnalyzeFile(st: State): (d: Dispatch)
    ensures d.request.Some? <==> st.jobDescription != [] && st.file.Some?
    ensures d.request.Some? ==> d.request == Some(FileRequest(st.jobDescription, st.file.value))
    ensures d.request.Some? ==> d.state == st.(loading := true, error := None)
    ensures d.request.None? ==> d.state == st.(error := Some(FileMissingMessage))
  {
    if st.jobDescription == [] || st.file.None? then
      Dispatch(st.(error := Some(FileMissingMessage)), None)
    else
      Dispatch(st.(loading := true, error := None), Some(FileRequest(st.jobDescription, st.file.value)))
  }

  /**
   A press of the analyze button: ignored while it is disabled by `loading`,
   otherwise the operation of the active tab.
   */
  function Press(st: State): (d: Dispatch)
    ensures d.request.Some? <==> !st.loading && st.jobDescription != [] && HasResumeInput(st)
    ensures st.loading ==> d == Dispatch(st, None)
    ensures !st.loading && d.request.None? ==>
      d.state == st.(error := Some(MissingMessage(st.activeTab)))
    ensures d.request.Some? ==> d.state == st.(loading := true, error := None)
    ensures d.request.Some? && st.activeTab == TextTab ==>
      d.request.value == TextRequest(st.jobDescription, st.cvText)
    ensures d.request.Some? && st.activeTab == FileTab ==>
      d.request.value == FileRequest(st.jobDescription, st.file.value)
  {
    if st.loading then Dispatch(st, None)
    else
      match st.activeTab
      case TextTab => AnalyzeText(st)
      case FileTab => AnalyzeFile(st)
  }

  /**
   The end of the outstanding call: a non-ok status or a thrown error
   shows its message and keeps the previous result; an ok response with a
   readable body replaces the result. Either way `loading` ends.
   */
  function Settle(st: State, outcome: Outcome): (r: State)
    ensures !r.loading
    ensures r.(loading := st.loading, result := st.result, error := st.error) == st
    ensures outcome.Response? && IsOk(outcome.status) && outcome.body.Parsed? ==>
      r.result == outcome.body.data && r.error == st.error
    ensures outcome.Response? && !IsOk(outcome.status) ==>
      r.result == st.result && r.error == Some(ApiErrorMessage(outcome.status))
    ensures outcome.Response? && IsOk(outcome.status) && outcome.body.Unparsable? ==>
      r.result == st.result && r.error == Some(outcome.body.message)
    ensures outcome.TransportFailure? ==>
      r.result == st.result && r.error == Some(outcome.message)
  {
    match outcome
    case TransportFailure(msg) => st.(error := Some(msg), loading := false)
    case Response(status, body) =>
      if !IsOk(status) then st.(error := Some(ApiErrorMessage(status)), loading := false)
      else
        match body
        case Unparsable(msg) => st.(error := Some(msg), loading := false)
        case Parsed(data) => st.(result := data, loading := false)
  }

  /**
   A full round from an idle state: a press that issues a request, then its
   outcome. Afterwards `loading` is off, the inputs are as they were, and
   either the new result is shown with no error or the old result is kept
   beside an error.
   */
  lemma RequestLifecycle(st: State, outcome: Outcome)
    requires !st.loading && st.jobDescription != [] && HasResumeInput(st)
    ensures Press(st).request.Some?
    ensures
      var r := Settle(Press(st).state, outcome);
      && !r.loading
      && r.(result := st.result, error := st.error) == st
      && (if outcome.Response? && IsOk(outcome.status) && outcome.body.Parsed?
          then r.result == outcome.body.data && r.error.None?
          else r.result == st.result && r.error.Some?)
  {
  }

  /** A failed validation issues nothing and touches only the error banner. */
  lemma ValidationFailureIssuesNothing(st: State)
    requires !st.loading
    requires st.jobDescription == [] || !HasResumeInput(st)
    ensures Press(st).request.None?
    ensures Press(st).state.loading == st.loading && Press(st).state.result == st.result
    ensures Press(st).state.error == Some(MissingMessage(st.activeTab))
  {
  }

  /** Whitespace counts as input: only the empty string is missing. */
  lemma WhitespaceIsInput()
    ensures Press(Initial.(jobDescription := " ", cvText := " ")).request == Some(TextRequest(" ", " "))
  {
  }

  /** Text mode posts the two fields, exactly as typed, to the text endpoint. */
  lemma TextSubmissionExample()
    ensures
      var d := Press(Initial.(jobDescription := "Senior Engineer", cvText := "10 years C++"));
      && d.request == Some(TextRequest("Senior Engineer", "10 years C++"))
      && Endpoint(d.request.value) == "/api/analyze"
  {
  }

  /** A status-500 failure after a successful analysis shows the status and keeps the old result. */
  lemma ServerErrorKeepsStaleResult(st: State, data: AnalysisResult, body: Body)
    requires st.result == Some(data)
    ensures Settle(st, Response(500, body)).result == Some(data)
    ensures Settle(st, Response(500, body)).error == Some("API Error: 500")
  {
    assert DecimalString(5) == "5";
    assert DecimalString(50) == "50";
    assert DecimalString(500) == "500";
    assert ApiErrorMessage(500) == ApiErrorPrefix + "500";
    assert ApiErrorPrefix + "500" == "API Error: 500";
  }

  /** The user actions and the completion of the outstanding call. */
  datatype Event =
    | EditJobDescription(text: string)
    | EditCvText(text: string)
    | SwitchTab(tab: Tab)
    | ChooseFile(selected: Option<CvFile>)
    | PressAnalyze
    | Complete(outcome: Outcome)

  /** A run so far: the state, every request issued, and how many of them have completed. */
  datatype Trace = Trace(state: State, requests: seq<Request>, completed: nat)

  /**
   One event. A completion arrives only for the outstanding request, so
   with none outstanding (`loading` off) it changes nothing.
   */
  function Step(t: Trace, ev: Event): (r: Trace)
    ensures t.requests <= r.requests && |r.requests| <= |t.requests| + 1
    ensures t.completed <= r.completed <= t.completed + 1
    ensures |r.requests| > |t.requests| ==> ev.PressAnalyze? && !t.state.loading && r.state.loading
    ensures r.completed > t.completed ==> ev.Complete? && t.state.loading && !r.state.loading
    ensures t.state.loading && ev.PressAnalyze? ==> r == t
    ensures |r.requests| > |t.requests| ==> Press(t.state).request == Some(r.requests[|t.requests|])
    ensures ev.PressAnalyze? ==> r.state == Press(t.state).state
    ensures ev.Complete? ==> r.state == if t.state.loading then Settle(t.state, ev.outcome) else t.state
    ensures ev.ChooseFile? ==> r.state == SelectFile(t.state, ev.selected)
    ensures ev.EditJobDescription? ==> r.state == t.state.(jobDescription := ev.text)
    ensures ev.EditCvText? ==> r.state == t.state.(cvText := ev.text)
    ensures ev.SwitchTab? ==> r.state == t.state.(activeTab := ev.tab)
    ensures r.state.result != t.state.result ==>
      ev.Complete? && ev.outcome.Response? && IsOk(ev.outcome.status) && ev.outcome.body.Parsed?
  {
    var st := t.state;
    match ev
    case EditJobDescription(text) => t.(state := st.(jobDescription := text))
    case EditCvText(text) => t.(state := st.(cvText := text))
    case SwitchTab(tab) => t.(state := st.(activeTab := tab))
    case ChooseFile(selected) => t.(state := SelectFile(st, selected))
    case PressAnalyze =>
      var d := Press(st);
      if d.request.Some? then Trace(d.state, t.requests + [d.request.value], t.completed)
      else t.(state := d.state)
    case Complete(outcome) =>
      if st.loading then Trace(Settle(st, outcome), t.requests, t.completed + 1) else t
  }

  /** The trace after a sequence of events, started with nothing issued. */
  function Run(st: State, events: seq<Event>): (r: Trace)
    ensures |r.requests| + r.completed <= |events|
    ensures r.requests == [] && r.completed == 0 ==>
      r.state.loading == st.loading && r.state.result == st.result
  {
    if events == [] then Trace(st, [], 0)
    else Step(Run(st, events[..|events| - 1]), events[|events| - 1])
  }

  /** `loading` holds exactly when one request is outstanding, and never more than one is. */
  ghost predicate InFlightTracked(t: Trace)
  {
    |t.requests| == t.completed + (if t.state.loading then 1 else 0)
  }

  /** The stored file, if any, has an accepted name. */
  ghost predicate StoredFileAccepted(st: State)
  {
    st.file.Some? ==> IsAcceptedName(st.file.value.name)
  }

  lemma StepKeepsInFlightTracked(t: Trace, ev: Event)
    requires InFlightTracked(t)
    ensures InFlightTracked(Step(t, ev))
  {
  }

  /** From an idle state, every run has at most one request outstanding, flagged by `loading`. */
  lemma {:induction false} RunKeepsInFlightTracked(st: State, events: seq<Event>)
    requires !st.loading
    ensures InFlightTracked(Run(st, events))
    // Implied by the invariant; spelled out for callers.
    ensures |Run(st, events).requests| <= Run(st, events).completed + 1
  {
    if events != [] {
      RunKeepsInFlightTracked(st, events[..|events| - 1]);
      StepKeepsInFlightTracked(Run(st, events[..|events| - 1]), events[|events| - 1]);
    }
  }

  lemma StepKeepsStoredFileAccepted(t: Trace, ev: Event)
    requires StoredFileAccepted(t.state)
    ensures StoredFileAccepted(Step(t, ev).state)
  {
    match ev
    case ChooseFile(selected) =>
    case PressAnalyze =>
    case Complete(outcome) =>
    case _ =>
  }

  /** No sequence of events stores a file whose name was rejected. */
  lemma {:induction false} RunKeepsStoredFileAccepted(st: State, events: seq<Event>)
    requires StoredFileAccepted(st)
    ensures StoredFileAccepted(Run(st, events).state)
  {
    if events != [] {
      RunKeepsStoredFileAccepted(st, events[..|events| - 1]);
      StepKeepsStoredFileAccepted(Run(st, events[..|events| - 1]), events[|events| - 1]);
    }
  }

  /** A file request issued by one event carries the stored, hence accepted, file. */
  lemma StepRequestCarriesAcceptedFile(t: Trace, ev: Event)
    requires StoredFileAccepted(t.state)
    ensures
      var r := Step(t, ev);
      |r.requests| > |t.requests| && r.requests[|t.requests|].FileRequest? ==>
        IsAcceptedName(r.requests[|t.requests|].cvFile.name)
  {
  }

  /** Every file request issued in a run carries an accepted file. */
  lemma {:induction false} RunRequestsCarryAcceptedFiles(st: State, events: seq<Event>)
    requires StoredFileAccepted(st)
    ensures forall i :: 0 <= i < |Run(st, events).requests| && Run(st, events).requests[i].FileRequest? ==>
      IsAcceptedName(Run(st, events).requests[i].cvFile.name)
  {
    if events != [] {
      var prefix := events[..|events| - 1];
      RunRequestsCarryAcceptedFiles(st, prefix);
      RunKeepsStoredFileAccepted(st, prefix);
      StepRequestCarriesAcceptedFile(Run(st, prefix), events[|events| - 1]);
    }
  }
}

=== FILE: upload.dfy ===
/**
 The upload filename check of `handleFileChange`: the "extension" is the
 suffix of the name from its last '.', lower-cased, and the file is accepted
 exactly when that suffix is one of the three valid types. A name with no
 '.' makes `lastIndexOf` answer -1, which `substring` clamps to 0, so the
 whole lower-cased name is compared.
 */
module Upload {
  import opened JsText

  const ValidTypes: seq<string> := [".pdf", ".docx", ".txt"]

  /** The suffix of `name` from its last '.', or the whole name when there is none, lower-cased. */
  function Extension(name: string): (ext: string)
    ensures '.' !in name ==> ext == ToLowerCase(name)
    ensures '.' in name ==>
      && 1 <= |ext| <= |name|
      && ext[0] == '.'
      && '.' !in ext[1..]
      && ext == ToLowerCase(name[|name| - |ext|..])
  {
    var k := LastIndexOf(name, '.');
    LastSuffixShape(name, k);
    ToLowerCase(Substring(name, k))
  }

  /** The lower-cased suffix from the last '.' starts with that '.' and holds no other. */
  lemma LastSuffixShape(name: string, k: int)
    requires k == LastIndexOf(name, '.')
    ensures '.' !in name ==> Substring(name, k) == name
    ensures '.' in name ==>
      var ext := ToLowerCase(Substring(name, k));
      && 1 <= |ext| <= |name|
      && ext[0] == '.'
      && '.' !in ext[1..]
      && ext == ToLowerCase(name[|name| - |ext|..])
  {
    LastIndexOfAbsent(name, '.');
    if '.' in name {
      var ext := ToLowerCase(Substring(name, k));
      assert name[k..] == Substring(name, k);
      LowerCharDot(name[k]);
      forall i | 1 <= i < |ext|
        ensures ext[i] != '.'
      {
        LowerCharDot(name[k + i]);
      }
    }
  }

  /** The `validTypes.includes(ext)` decision. */
  predicate IsAcceptedName(name: string)
    ensures IsAcceptedName(name) ==> '.' in name && |name| >= 4
  {
    // Both branches decide the same; the split only carries the lemma call for the ensures.
    if '.' !in name then
      ToLowerCaseKeepsNoDot(name);
      Extension(name) in ValidTypes
    else
      Extension(name) in ValidTypes
  }

  /** `suffix` is a lower-case string that `name` ends with, ignoring ASCII case. */
  ghost predicate EndsWithIgnoringCase(name: string, suffix: string)
  {
    |suffix| <= |name| && ToLowerCase(name[|name| - |suffix|..]) == suffix
  }

  /** A lower-case type with a single leading '.', as every valid type is. */
  ghost predicate DotType(t: string)
  {
    |t| >= 1 && t[0] == '.' && '.' !in t[1..] && ToLowerCase(t) == t
  }

  /** Each valid type is its own lower-casing. */
  lemma ValidTypesAreLowerCase()
    ensures forall t :: t in ValidTypes ==> ToLowerCase(t) == t
  {
    LowerCaseLiteral(".pdf", ".pdf");
    LowerCaseLiteral(".docx", ".docx");
    LowerCaseLiteral(".txt", ".txt");
  }

  lemma ValidTypesAreDotTypes()
    ensures forall t :: t in ValidTypes ==> DotType(t)
  {
    assert ".pdf"[1..] == "pdf";
    assert ".docx"[1..] == "docx";
    assert ".txt"[1..] == "txt";
    ValidTypesAreLowerCase();
  }

  /** A name that ends with a dot type, ignoring case, has that type as its extension. */
  lemma {:induction false} ExtensionOfDotSuffix(name: string, t: string)
    requires DotType(t)
    requires EndsWithIgnoringCase(name, t)
    ensures Extension(name) == t
  {
    var k := |name| - |t|;
    var low := ToLowerCase(name[k..]);
    assert low[0] == LowerChar(name[k]);
    LowerCharDot(name[k]);
    assert name[k] == '.';
    var ext := Extension(name);
    var e := |name| - |ext|;
    // The extension starts at the last '.', which can be neither before nor after k.
    LowerCharDot(name[e]);
    if e < k {
      assert false;
    } else if e > k {
      assert false;
    }
  }

  /** An accepted name ends, ignoring case, with its (valid) extension. */
  lemma AcceptedEndsWithExtension(name: string)
    requires IsAcceptedName(name)
    ensures EndsWithIgnoringCase(name, Extension(name))
  {
  }

  /** A name that ends, ignoring case, with one of the valid types is accepted. */
  lemma EndsWithValidTypeAccepted(name: string, t: string)
    requires t in ValidTypes
    requires EndsWithIgnoringCase(name, t)
    ensures IsAcceptedName(name)
  {
    ValidTypesAreDotTypes();
    ExtensionOfDotSuffix(name, t);
  }

  /**
   A name is accepted exactly when it ends, ignoring ASCII case, with one of
   ".pdf", ".docx" and ".txt".
   */
  lemma {:induction false} AcceptedIffEndsWithValidType(name: string)
    ensures IsAcceptedName(name) <==> exists t :: t in ValidTypes && EndsWithIgnoringCase(name, t)
  {
    if IsAcceptedName(name) {
      AcceptedEndsWithExtension(name);
      assert Extension(name) in ValidTypes;
    }
    if exists t :: t in ValidTypes && EndsWithIgnoringCase(name, t) {
      var t :| t in ValidTypes && EndsWithIgnoringCase(name, t);
      EndsWithValidTypeAccepted(name, t);
    }
  }

  /** Names that differ only in letter case have their last '.' at the same place. */
  lemma SameLastDot(a: string, b: string)
    requires SameIgnoringCase(a, b)
    ensures LastIndexOf(a, '.') == LastIndexOf(b, '.')
  {
    forall i | 0 <= i < |a|
      ensures a[i] == '.' <==> b[i] == '.'
    {
      LowerCharDot(a[i]);
      LowerCharDot(b[i]);
    }
  }

  /** Names that differ only in letter case have the same extension, hence the same verdict. */
  lemma {:induction false} AcceptanceIgnoresCase(a: string, b: string)
    requires SameIgnoringCase(a, b)
    ensures Extension(a) == Extension(b)
    ensures IsAcceptedName(a) <==> IsAcceptedName(b)
  {
    SameLastDot(a, b);
    var k := LastIndexOf(a, '.');
    var sa := Substring(a, k);
    var sb := Substring(b, k);
    assert SameIgnoringCase(sa, sb) by {
      var s := if k < 0 then 0 else k;
      assert forall i :: 0 <= i < |sa| ==> sa[i] == a[s + i] && sb[i] == b[s + i];
    }
    ToLowerCaseEqualIff(sa, sb);
    assert Extension(a) == ToLowerCase(sa);
    assert Extension(b) == ToLowerCase(sb);
  }

  lemma MixedCasePdfAccepted()
    ensures IsAcceptedName("resume.PDF")
  {
    assert "resume.PDF"[6..] == ".PDF";
    assert ToLowerCase(".PDF") == ".pdf";
    ExtensionOfDotSuffix("resume.PDF", ".pdf");
  }

  lemma InnerDotIgnored()
    ensures IsAcceptedName("a.tar.pdf")
  {
    assert "a.tar.pdf"[5..] == ".pdf";
    assert ToLowerCase(".pdf") == ".pdf";
    ExtensionOfDotSuffix("a.tar.pdf", ".pdf");
  }

  lemma TrailingTypeDecides()
    ensures !IsAcceptedName("a.pdf.exe")
    ensures !IsAcceptedName("resume.exe")
  {
    assert ".exe"[1..] == "exe";
    assert ToLowerCase(".exe") == ".exe";
    assert "a.pdf.exe"[5..] == ".exe";
    ExtensionOfDotSuffix("a.pdf.exe", ".exe");
    assert "resume.exe"[6..] == ".exe";
    ExtensionOfDotSuffix("resume.exe", ".exe");
  }

  lemma WholeNameComparedWithoutDot()
    ensures !IsAcceptedName("pdf")
    ensures IsAcceptedName(".PDF")
  {
    assert ".PDF"[0..] == ".PDF";
    assert ToLowerCase(".PDF") == ".pdf";
    ExtensionOfDotSuffix(".PDF", ".pdf");
  }
}
